=== FILE: README.md ===
# Game Of… — the elimination game, modelled in Dafny

"Game Of…" is a party game run from one React component (`src/App.jsx`).
Players join on a setup screen and a target word is chosen. Once the game
starts, each player collects the letters of the word one tap at a time, in
order. Whitespace in the word is skipped. A player who has spelled the whole
word is eliminated. When only one player is still in, that player is the
winner and a results screen shows the final ranking.

This project models that state machine and proves its properties. It has
five modules:

- `JsText` (`jstext.dfy`): the two string operations the component uses, with
  JavaScript semantics. These are `String.prototype.trim` (`Trim`) and
  `replace(/\s/g, '')` (`Clean`). Both use the ECMAScript WhiteSpace and
  LineTerminator set.
- `Game` (`game.dfy`): the state (`GameState`, `Player`) and every event
  handler. Each handler is a pure function from the state at call time to
  the next state, and its contract says what the handler promises. It also
  holds the screen selection `ScreenOf`.
- `GameProperties` (`game_props.dfy`): properties that relate handlers.
  - Inverses: add then remove a player; add then undo a letter; toggle the
    wildcard twice; dismiss then re-check.
  - The per-player progress invariant: letters are a prefix of the stripped
    word, and `eliminated` marks completion.
  - The meaning of repeated taps.
  - An independent description of "the single survivor" and its link to
    the filtered active list.
  - The surprising behaviours of the code.
- `Ranking` (`ranking.dfy`): the comparator of the results screen, and the
  ranking as a stable insertion sort.
  - It is a permutation, in non-decreasing rank key.
  - Equal keys keep their input order.
  - It equals every other stable sort by the same order.
  - The winner comes first.
- `Session` (`session.dfy`): the game as a user drives it.
  - Every screen offers only some controls (`Available`), and an event is a
    click on one of them (`Step`, `Run`).
  - The invariant `Inv` holds in every reachable state. It covers progress,
    non-empty names, untouched players before the start, and "a declared
    winner is the single survivor".
  - Two reading-out theorems for reachable states.
  - A worked example with the preset word "BIKE".

Behaviours of `src/App.jsx` a reader may not expect:

- `addPlayer` (lines 100-105) checks for duplicates against the untrimmed
  input but stores the trimmed name. The input `" A"` therefore adds a second
  player called "A" (`GameProperties.PaddedInputAddsDuplicate`).
- `removePlayer` (lines 107-109) filters by index, so an index that is not a
  seat changes nothing.
- `addLetter`, `removeLetter` and `useWildcard` (lines 152-211) read a
  property of `updatedPlayers[playerIndex]`. With an index that is not a seat
  that is `undefined`, and the code throws a `TypeError`. Every control
  passes a seat index, so the model makes the index a precondition.
- `removeLetter` calls `setWinner('')` (line 200). But its undo button
  (lines 629-640) is on the board, and the board shows only while no winner is
  set (line 223). So through the screens an undo never changes the winner
  (`Session.UndoKeepsWinner`).
- "Back to Game" (line 303) clears the winner and leaves the single survivor
  in place. So "the winner is non-empty if and only if exactly one player is
  still in" does not hold on the board that follows
  (`Session.DismissLeavesSurvivorWithoutWinner`, and the first step of
  `Session.BikeUndo`). The model proves the direction that does hold: a
  declared winner is always the single survivor.
- The start guard (lines 111-115) tests the raw word, and taps use the word
  with whitespace removed (line 160). A non-empty word made only of
  whitespace therefore starts a game in which no tap collects anything and
  nobody is ever eliminated (`GameProperties.BlankWordStartsEndlessGame`).
- `JSON.parse` of the saved snapshot (line 85) is unguarded, so a malformed
  snapshot throws. That code is not part of this model (see below).

## Model

| member | source | states |
|---|---|---|
| `JsText.IsSpace` | src/App.jsx:101 | The whitespace set shared by `trim()` here and by `\s` at line 160: tab, line feed, vertical tab, form feed, carriage return, space, no-break space, U+1680, U+2000-U+200A, the line and paragraph separators, U+202F, U+205F, U+3000 and the byte order mark. |
| `JsText.TrimStart` | src/App.jsx:101 | The result is the suffix of the input left after dropping its leading whitespace: everything dropped is whitespace, and the result is empty or starts with a non-whitespace character. |
| `JsText.TrimEnd` | src/App.jsx:101 | The result is the prefix of the input left after dropping its trailing whitespace: everything dropped is whitespace, and the result is empty or ends with a non-whitespace character. |
| `JsText.Trim` | src/App.jsx:101-102 | `trim()` returns the infix of the name that is left after cutting whitespace off both ends: everything before and after it is whitespace. It is empty exactly when the name is all whitespace, and otherwise starts and ends with a non-whitespace character. |
| `JsText.Clean` | src/App.jsx:160 | `replace(/\s/g, '')` leaves no whitespace, is no longer than the word, and holds exactly the non-whitespace characters of the word. |
| `JsText.CleanOfChar` | src/App.jsx:160 | A single whitespace character strips to nothing; any other character is kept. |
| `JsText.CleanAppend` | src/App.jsx:160 | Stripping a concatenation is the concatenation of the stripped parts. With `CleanOfChar` this fixes the order and multiplicity of the kept characters. |
| `JsText.CleanOfSpaceless` | src/App.jsx:160 | A word without whitespace is its own stripped form. |
| `JsText.CleanIdempotent` | src/App.jsx:160 | Stripping an already stripped word changes nothing. |
| `JsText.CleanOfAllSpace` | src/App.jsx:160 | A word made only of whitespace strips to the empty word. |
| `Game.ScreenOf` | src/App.jsx:223 | Results exactly when a winner is set. Otherwise setup exactly while the game has not started (the test at line 329), and the board once it has. |
| `Game.HasName` | src/App.jsx:101 | `players.find(p => p.name === playerName)` finds something exactly when some seat holds a player whose name equals the given string, compared as is. |
| `Game.ActivePlayers` | src/App.jsx:184 | The `filter(p => !p.eliminated)` list is no longer than the players and holds only players still in. |
| `Game.DropIndex` | src/App.jsx:108 | `filter((_, i) => i !== index)` removes exactly the element at the index and keeps the rest in order. It is the identity for an index that is not a position. |
| `Game.AddPlayer` | src/App.jsx:100-105 | A player named `Trim(input)` with no letters, not eliminated and without wildcard is appended. This happens exactly when the trimmed input is non-empty and no player is named the untrimmed input. Old players are a prefix of the new list and nothing but the list changes. |
| `Game.RemovePlayer` | src/App.jsx:107-109 | Exactly seat `i` leaves and the others keep their order. Nothing else changes. An index that is not a seat changes nothing at all. |
| `Game.StartGame` | src/App.jsx:111-115 | The game is started afterwards exactly when it already was, or the raw word is non-empty and at least two players joined. Nothing else changes. |
| `Game.ChooseWord` | src/App.jsx:403-421 | Picking a preset or typing a word sets the word and nothing else. |
| `Game.AddsLetter` | src/App.jsx:157-165 | A tap collects a letter exactly when the player is not eliminated and holds fewer letters than the stripped word has. |
| `Game.CollectLetter` | src/App.jsx:162-171 | A player still in with fewer letters than the stripped word gets the stripped word's letter at its own progress index. It is eliminated exactly when its letters then equal the stripped word. Any other player is unchanged, and the name and wildcard mark never change. |
| `Game.AddLetter` | src/App.jsx:152-190 | Only seat `i` changes, and it changes as `CollectLetter` says. A tap that collects nothing changes nothing. After a collected letter, if exactly one player is still in, that player becomes the winner and the winner flag is raised. Otherwise the winner and the flag stay. The word and the started flag never change. |
| `Game.RemoveLetter` | src/App.jsx:192-202 | With letters, exactly the last letter of seat `i` is dropped and the player is back in. The winner is cleared whoever it was. The winner flag, the word, the name, the wildcard mark and all other seats stay. With no letters nothing changes. |
| `Game.UseWildcard` | src/App.jsx:204-211 | For a player still in, the wildcard mark flips and nothing else of that player changes. An eliminated player is left alone. Other seats and the rest of the state never change. |
| `Game.ResetGame` | src/App.jsx:213-221 | From any state: back to the setup screen, with no word, no players and the winner flag down. |
| `Game.DismissWinner` | src/App.jsx:303 | "Back to Game" clears only the winner, which always leaves the results screen. |
| `Game.RecheckWinner` | src/App.jsx:526-531 | If exactly one player is still in, that player's name becomes the winner. Otherwise nothing changes. Only the winner can change. |
| `GameProperties.ActiveIsFilter` | src/App.jsx:184 | A player is in the filtered list exactly when it is among the players and not eliminated, and it occurs there as often as among the players. |
| `GameProperties.SoleActiveIsSurvivor` | src/App.jsx:184-186 | When the filtered list has one element, exactly one seat holds a player still in, and that player has this name. |
| `GameProperties.SoleActiveSeat` | src/App.jsx:184-186 | When the filtered list has one element, it returns the seat of that player, the only seat whose player is still in. |
| `GameProperties.NoneActive` | src/App.jsx:184 | The filtered list is empty if and only if every player is eliminated. |
| `GameProperties.SurvivorIsSoleActive` | src/App.jsx:528-530 | Conversely, a single survivor is exactly what the filter reports: a one-element list holding that player. |
| `GameProperties.AddThenRemovePlayer` | src/App.jsx:100-109 | Removing the seat a successful `addPlayer` just filled gives back the state before it. |
| `GameProperties.PaddedInputAddsDuplicate` | src/App.jsx:101-102 | With a player "A" seated, the input " A" seats a second player named "A". |
| `GameProperties.BlankWordStartsEndlessGame` | src/App.jsx:111-115 | Any non-empty word made only of whitespace passes the start guard with two players, and afterwards no tap on any player changes anything. |
| `GameProperties.AddLetterKeepsProgress` | src/App.jsx:160-171 | If every player's letters are a prefix of the stripped word, with elimination marking a completed non-empty word, that still holds after `addLetter`. |
| `GameProperties.RemoveLetterKeepsProgress` | src/App.jsx:196-198 | The same progress invariant holds after `removeLetter`: a shorter prefix is never the whole word, and the player is back in. |
| `GameProperties.UseWildcardKeepsProgress` | src/App.jsx:204-211 | `useWildcard` keeps the progress invariant and touches no one's letters or elimination. |
| `GameProperties.UseWildcardTwice` | src/App.jsx:206-208 | Toggling the wildcard twice restores the state. |
| `GameProperties.RemoveLetterUndoesAddLetter` | src/App.jsx:192-202 | Undoing a collected letter restores every player. Of the rest of the state only the winner, now cleared, and the winner flag can differ. |
| `GameProperties.TapsCollect` | src/App.jsx:152-171 | Seat `i` after `k` taps is the player after `k` collections from the stripped word. The other players and the winner never feed back into its letters. |
| `GameProperties.CollectKeepsProgress` | src/App.jsx:162-171 | One collection keeps the progress invariant and lengthens the letters by one, up to the stripped word's length. |
| `GameProperties.CollectedKeepsProgress` | src/App.jsx:162-171 | `k` collections keep the progress invariant and lengthen the letters by `k`, up to the stripped word's length. |
| `GameProperties.CollectedSpellsThePrefix` | src/App.jsx:162-171 | From no letters, `k` collections spell the first `min(k, n)` letters of the stripped word of length `n`. The player is eliminated exactly when a non-empty stripped word is complete. |
| `GameProperties.TapsSpellThePrefix` | src/App.jsx:152-171 | From no letters, `k` taps on a seat spell the first `min(k, n)` letters of the stripped word. The player is eliminated exactly when `k` reaches the length of a non-empty stripped word. |
| `GameProperties.ActiveCountMatchesCompletions` | src/App.jsx:184 | Under the progress invariant and a non-empty stripped word, the number of players still in is the number of players minus those who spelled the word in full. |
| `GameProperties.AddLetterDeclaresSoleSurvivor` | src/App.jsx:184-188 | When a tap collects a letter and leaves exactly one player in, the winner it declares is that single survivor, and the winner flag is up. |
| `GameProperties.RecheckDeclaresSoleSurvivor` | src/App.jsx:526-531 | When exactly one player is in, the winner that the leaderboard re-check declares is that single survivor. |
| `GameProperties.DismissThenRecheck` | src/App.jsx:526-531 | "Back to Game" (line 303) followed by "Back to Leaderboard" returns the same results state while the winner is still the single survivor. |
| `Ranking.Compare` | src/App.jsx:227-230 | The comparator: -1 when the first player carries the winner's name, else 1 when the second does, else the first's letter count minus the second's. Its meaning as an order is stated by `CompareAgreesWithKey`. |
| `Ranking.CompareAgreesWithKey` | src/App.jsx:225-231 | Unless both players carry the winner's name, the comparator's sign is the comparison of the rank keys: -1 for the winner, the letter count otherwise. If both carry it, the comparator answers "first" both ways. |
| `Ranking.Insert` | src/App.jsx:225-231 | Insertion adds exactly one element: a permutation of the old sequence plus the new player. |
| `Ranking.InsertSorted` | src/App.jsx:225-231 | Inserting into a sequence sorted by rank key keeps it sorted. |
| `Ranking.InsertBucket` | src/App.jsx:225-231 | Inserting places the new player at the front of its own equal-key group and leaves every other group alone. |
| `Ranking.Rank` | src/App.jsx:225 | The ranking is a permutation of the players. |
| `Ranking.RankSorted` | src/App.jsx:225-231 | The ranking is in non-decreasing rank key: the winner's name first, then fewer letters first. |
| `Ranking.FinalRanking` | src/App.jsx:225 | The ranking of the results screen is a permutation of the players in non-decreasing rank key. |
| `Ranking.RankIsStable` | src/App.jsx:225-231 | Players with equal rank key keep their relative order from the player list. |
| `Ranking.RankIsTheStableSort` | src/App.jsx:225-231 | Every sequence sorted by rank key that keeps the input order within each key is exactly the ranking. So any stable sort gives the same result. |
| `Ranking.RankShape` | src/App.jsx:225-231 | If some player carries the winner's name, the ranking starts with such a player. Namesakes of the winner precede everyone else, and the rest have non-decreasing letter counts. |
| `Ranking.RankExample` | src/App.jsx:225-231 | A with three letters, winner B and C with one letter each, joined in that order, rank as B, C, A. |
| `Session.Available` | src/App.jsx:303-309 | Which controls each screen renders: results offers "Back to Game" and "New Game" (lines 303-309); setup offers the word, the name field, per-seat removal and Start (lines 403-463); the board offers reset and, once a winner was declared, "Back to Leaderboard" (lines 512-559), and per seat the wildcard button for a player still in (lines 557-572), the letter track for a player still in and undo for a player holding letters (lines 578-640). |
| `Session.InitialInv` | src/App.jsx:23-28 | The fresh state satisfies the session invariant. |
| `Session.ChooseWordKeepsInv` | src/App.jsx:403-421 | Choosing a word on the setup screen keeps the invariant, since nobody holds letters yet. |
| `Session.AddPlayerKeepsInv` | src/App.jsx:100-105 | A player joining on the setup screen keeps the invariant: the newcomer has a non-empty name and no letters. |
| `Session.RemovePlayerKeepsInv` | src/App.jsx:107-109 | A player leaving on the setup screen keeps the invariant. |
| `Session.AddLetterKeepsInv` | src/App.jsx:152-190 | A tap on the board keeps the invariant, including "a declared winner is the single survivor". |
| `Session.RemoveLetterKeepsInv` | src/App.jsx:192-202 | Undoing a letter on the board keeps the invariant. |
| `Session.UseWildcardKeepsInv` | src/App.jsx:204-211 | Toggling a wildcard on the board keeps the invariant. |
| `Session.RecheckKeepsInv` | src/App.jsx:523-531 | "Back to Leaderboard", shown only on the board with the winner flag up, keeps the invariant. |
| `Session.StepKeepsInv` | src/App.jsx:523-559 | Every control a screen renders keeps the invariant, and a control not on screen does nothing. The results screen has its buttons at lines 303-309, setup at lines 403-463, and the board at lines 512-559 (reset and "Back to Leaderboard"), 557-572 (the wildcard button in each player's header) and 578-640 (letter tracks with the `addLetter` call at 605-607, and undo). |
| `Session.RunKeepsInv` | src/App.jsx:22-28 | Every sequence of clicks from a state satisfying the invariant ends in a state satisfying it. |
| `Session.ReachableResults` | src/App.jsx:223-231 | On any reachable results screen, the winner is the single survivor, the winner flag is up and the ranking starts with a player of the winner's name. |
| `Session.ReachableProgress` | src/App.jsx:160-171 | In any reachable state, every player's letters are a prefix of the stripped word. A player is eliminated exactly when a non-empty stripped word is spelled in full. |
| `Session.TapFirstOfTwo` | src/App.jsx:165-188 | In a two-player game with the second player still in, a collecting tap on the first updates that player as `CollectLetter` says. It declares the second the winner exactly when the first is eliminated. |
| `Session.BikeFourTaps` | src/App.jsx:152-190 | Word "BIKE" (a preset, line 79), players X and Y: four taps on X spell "BIKE", eliminate X, declare Y the winner and raise the flag. |
| `Session.UndoKeepsWinner` | src/App.jsx:629-640 | The undo control is offered only while no winner is set, so an undo through the screens never changes the winner. |
| `Session.DismissLeavesSurvivorWithoutWinner` | src/App.jsx:303 | From any reachable results screen, "Back to Game" shows the board with no winner while the former winner is still the single survivor. |
| `Session.BikeUndo` | src/App.jsx:192-202 | From the "BIKE" results screen, "Back to Game" gives a board with no winner while Y is still the only player in. Undoing X's last letter there brings X back with "BIK", so two players are in again; the winner stays empty and the flag stays up. |

## Left out

- Saving to and restoring from `localStorage` (src/App.jsx:82-98, 220) is browser I/O and is not part of this model. That covers `JSON.stringify` and the unguarded `JSON.parse`, which throws on a malformed snapshot. A restored snapshot is the only way to show the results screen before the game starts. `ScreenOf` still covers that state, but `Session` starts from a fresh page.
- The `playerName` input field (lines 25, 103, 216) is left out. `AddPlayer` takes the typed name as a parameter, and clearing the field is not modelled.
- Auto-scroll (lines 117-150) and the `setTimeout` that triggers it (lines 175-181) are DOM geometry and timers, so they are left out.
- Wheel and drag scrolling of the setup screen's word preview (lines 359-383) and of the board's letter tracks (lines 582-613) are left out, except for the tracks' call into `addLetter`, which is `Session.Event.TapLetters`. The mouse-up guard reads the player as it was rendered, and `Available` reads the current state. The two agree because every handler re-renders.
- Locale detection and the translation tables (lines 30-76), the preset list (line 79) and the `toUpperCase` on typed words (line 421) are left out. The word is an arbitrary string passed to `ChooseWord`.
- The letter tracks drop only `' '` from the word for display (lines 385 and 615), unlike `Clean`. This is presentation only and is not modelled, along with all other markup and styling and the footer.
- React's batched setters and the shallow copies through which `addLetter`, `removeLetter` and `useWildcard` mutate player objects in place (lines 153, 166, 193, 205) are modelled as plain value updates of the state at call time.
- Words and names are sequences of characters up to U+FFFF, each of which is one UTF-16 code unit in JavaScript. Dafny's `char` is a Unicode scalar value and excludes the surrogate code units U+D800-U+DFFF. A character above U+FFFF is therefore not represented. The code counts such a character as two code units (lines 160-169): a player collects it in two taps, the first appending a lone surrogate, and it adds two to the letter count that ranks players.
- Game.AddLetter: requires the index to be a seat. The code throws a `TypeError` on any other index rather than ignoring it, and every control passes a seat index.
- Game.RemoveLetter: requires the index to be a seat, for the same reason.
- Game.UseWildcard: requires the index to be a seat, for the same reason.
- Ranking.Rank: `Array.prototype.sort` is stable but its algorithm is not fixed. When two players carry the winner's name, the comparator is inconsistent and the engine's order is implementation-defined. `Rank` is one stable insertion sort, and `RankShape` only promises that a namesake of the winner comes first. The comparator is never consistent in the sense of ECMA-262, since it returns -1 when it compares the winner with itself. But with at most one such player it is consistent on distinct players, and `RankIsTheStableSort` shows that every stable sort by it agrees with `Rank`.

=== FILE: game.dfy ===
/** The elimination game of `src/App.jsx`: its state and the event handlers,
    each a pure transition from the state at call time to the next state.
    Players tap to collect the letters of a shared word; whoever spells the
    whole word is eliminated and the last player standing wins. */
module Game {
  import opened JsText

  /** One participant: `letters` is the part of the word collected so far. */
  datatype Player = Player(name: string, letters: string, eliminated: bool, wildcardUsed: bool)

  /** The component's game state (the input field holding a player name being
      typed is not part of it: `AddPlayer` takes the name as a parameter). */
  datatype GameState = GameState(
    gameWord: string,
    players: seq<Player>,
    gameStarted: bool,
    winner: string,
    wasWinner: bool)

  /** The three screens the component renders. */
  datatype Screen = Setup | Board | Results

  /** The state of a fresh page: no word, no players. */
  const Initial: GameState := GameState("", [], false, "", false)

  /** A player as `addPlayer` creates it. */
  function NewPlayer(name: string): Player {
    Player(name, "", false, false)
  }

  /** Screen selection: a non-empty winner always shows the results, whether
      or not the game has started; otherwise the setup screen until the game
      starts, then the board. */
  function ScreenOf(s: GameState): (v: Screen)
    ensures v == Results <==> s.winner != ""
    ensures v == Setup <==> s.winner == "" && !s.gameStarted
    ensures v == Board <==> s.winner == "" && s.gameStarted
  {
    if s.winner != "" then Results
    else if !s.gameStarted then Setup
    else Board
  }

  // ---------------------------------------------------------------------
  // Helpers: name lookup, the active players, index removal
  // ---------------------------------------------------------------------

  /** Some player is called exactly `n` (`players.find(p => p.name === n)`). */
  predicate HasName(ps: seq<Player>, n: string) {
    exists k :: 0 <= k < |ps| && ps[k].name == n
  }

  /** `players.filter(p => !p.eliminated)`: the players still in the game, in
      seating order. */
  function ActivePlayers(ps: seq<Player>): (r: seq<Player>)
    ensures |r| <= |ps|
    ensures forall k :: 0 <= k < |r| ==> !r[k].eliminated
  {
    if ps == [] then []
    else
      (if ps[0].eliminated then [] else [ps[0]]) + ActivePlayers(ps[1..])
  }

  /** Independent description of a game that has a single survivor called
      `n`: exactly one seat holds a non-eliminated player, and that player is
      called `n`. */
  ghost predicate SoleSurvivor(ps: seq<Player>, n: string) {
    exists k :: 0 <= k < |ps| && !ps[k].eliminated && ps[k].name == n &&
      forall j :: 0 <= j < |ps| && !ps[j].eliminated ==> j == k
  }

  /** `xs.filter((_, k) => k !== i)`: the sequence with the element at index
      `i` removed, or unchanged when `i` is not an index of it. */
  function DropIndex<T>(xs: seq<T>, i: int): (r: seq<T>)
    ensures 0 <= i < |xs| ==> r == xs[..i] + xs[i + 1..]
    ensures !(0 <= i < |xs|) ==> r == xs
  {
    if xs == [] then []
    else
      var rest := DropIndex(xs[1..], i - 1);
      if i == 0 then rest
      else
        assert 0 < i < |xs| ==> [xs[0]] + xs[1..][..i - 1] == xs[..i];
        assert 0 < i < |xs| ==> xs[1..][i..] == xs[i + 1..];
        assert !(0 <= i < |xs|) ==> [xs[0]] + xs[1..] == xs;
        [xs[0]] + rest
  }

  // ---------------------------------------------------------------------
  // Setup handlers
  // ---------------------------------------------------------------------

  /** `addPlayer`: a new player named `Trim(input)` joins at the end when the
      trimmed input is non-empty and no player is called exactly the UNTRIMMED
      input; otherwise nothing changes. Only the player list changes. */
  function AddPlayer(s: GameState, input: string): (r: GameState)
    ensures r.(players := s.players) == s
    ensures s.players <= r.players && |r.players| <= |s.players| + 1
    ensures |r.players| == |s.players| + 1 <==> Trim(input) != "" && !HasName(s.players, input)
    ensures |r.players| == |s.players| + 1 ==> r.players[|s.players|] == NewPlayer(Trim(input))
  {
    var name := Trim(input);
    if name != "" && !HasName(s.players, input) then
      s.(players := s.players + [NewPlayer(name)])
    else s
  }

  /** `removePlayer`: exactly the player at index `i` leaves and the others keep
      their order; an index that is not a seat changes nothing. */
  function RemovePlayer(s: GameState, i: int): (r: GameState)
    ensures r.(players := s.players) == s
    ensures 0 <= i < |s.players| ==> r.players == s.players[..i] + s.players[i + 1..]
    ensures 0 <= i < |s.players| ==> |r.players| == |s.players| - 1
    ensures !(0 <= i < |s.players|) ==> r == s
  {
    s.(players := DropIndex(s.players, i))
  }

  /** `startGame`: the game starts when the word is non-empty (whitespace
      counts) and at least two players have joined; nothing else changes. */
  function StartGame(s: GameState): (r: GameState)
    ensures r.(gameStarted := s.gameStarted) == s
    ensures r.gameStarted <==> s.gameStarted || (s.gameWord != "" && |s.players| >= 2)
  {
    if s.gameWord != "" && |s.players| >= 2 then s.(gameStarted := true) else s
  }

  /** Typing or picking the target word on the setup screen. */
  function ChooseWord(s: GameState, w: string): (r: GameState)
    ensures r.gameWord == w && r.(gameWord := s.gameWord) == s
  {
    s.(gameWord := w)
  }

  // ---------------------------------------------------------------------
  // Board handlers
  // ---------------------------------------------------------------------

  /** A tap on player `i` collects a letter: the player is still in and has
      not collected as many letters as the stripped word has. */
  predicate AddsLetter(s: GameState, i: nat)
    requires i < |s.players|
  {
    !s.players[i].eliminated && |s.players[i].letters| < |Clean(s.gameWord)|
  }

  /** Everything but seat `i` is the same in both player lists. */
  predicate OthersUnchanged(ps: seq<Player>, qs: seq<Player>, i: nat) {
    |ps| == |qs| && forall j :: 0 <= j < |ps| && j != i ==> qs[j] == ps[j]
  }

  /** The part of `addLetter` that updates the tapped player, given the
      stripped word `clean`: a player still in, with fewer letters than
      `clean`, receives the letter of `clean` at its own progress index and is
      eliminated exactly when its letters then equal `clean`; any other
      player is returned unchanged. */
  function CollectLetter(p: Player, clean: string): (q: Player)
    ensures q.name == p.name && q.wildcardUsed == p.wildcardUsed
    ensures !p.eliminated && |p.letters| < |clean| ==>
      && q.letters == p.letters + [clean[|p.letters|]]
      && (q.eliminated <==> q.letters == clean)
    ensures p.eliminated || |p.letters| >= |clean| ==> q == p
  {
    if !p.eliminated && |p.letters| < |clean| then
      var letters := p.letters + [clean[|p.letters|]];
      if letters == clean then p.(letters := letters, eliminated := true)
      else p.(letters := letters)
    else p
  }

  /** `addLetter`: when the tap collects a letter, player `i` receives the next
      letter of the stripped word (the one at its own progress index) and is
      eliminated exactly when its letters now equal the stripped word; if then
      exactly one player is still in, that player becomes the winner and the
      winner flag is raised. A tap that collects nothing changes nothing. */
  function AddLetter(s: GameState, i: nat): (r: GameState)
    requires i < |s.players|
    ensures r.gameWord == s.gameWord && r.gameStarted == s.gameStarted
    ensures OthersUnchanged(s.players, r.players, i)
    ensures r.players[i] == CollectLetter(s.players[i], Clean(s.gameWord))
    ensures !AddsLetter(s, i) ==> r == s
    ensures AddsLetter(s, i) && |ActivePlayers(r.players)| == 1 ==>
      r.winner == ActivePlayers(r.players)[0].name && r.wasWinner
    ensures !(AddsLetter(s, i) && |ActivePlayers(r.players)| == 1) ==>
      r.winner == s.winner && r.wasWinner == s.wasWinner
  {
    var p := s.players[i];
    if p.eliminated then s
    else
      var clean := Clean(s.gameWord);
      if |p.letters| < |clean| then
        var ps := s.players[i := CollectLetter(p, clean)];
        var active := ActivePlayers(ps);
        if |active| == 1 then s.(players := ps, winner := active[0].name, wasWinner := true)
        else s.(players := ps)
      else s
  }

  /** `removeLetter`: when player `i` holds letters, its last letter is dropped,
      it is back in the game, and the declared winner is cleared whoever it
      was; the winner flag and all other players stay. With no letters,
      nothing changes. */
  function RemoveLetter(s: GameState, i: nat): (r: GameState)
    requires i < |s.players|
    ensures r.gameWord == s.gameWord && r.gameStarted == s.gameStarted && r.wasWinner == s.wasWinner
    ensures OthersUnchanged(s.players, r.players, i)
    ensures s.players[i].letters == [] ==> r == s
    ensures s.players[i].letters != [] ==>
      var p, q := s.players[i], r.players[i];
      && q.letters + [p.letters[|p.letters| - 1]] == p.letters
      && !q.eliminated
      && q.name == p.name && q.wildcardUsed == p.wildcardUsed
      && r.winner == ""
  {
    var p := s.players[i];
    if |p.letters| > 0 then
      var q := p.(letters := p.letters[..|p.letters| - 1], eliminated := false);
      s.(players := s.players[i := q], winner := "")
    else s
  }

  /** `useWildcard`: flips the wildcard mark of a player still in the game;
      an eliminated player is left alone. Nothing else changes. */
  function UseWildcard(s: GameState, i: nat): (r: GameState)
    requires i < |s.players|
    ensures r.(players := s.players) == s
    ensures OthersUnchanged(s.players, r.players, i)
    ensures s.players[i].eliminated ==> r == s
    ensures !s.players[i].eliminated ==>
      && r.players[i].wildcardUsed != s.players[i].wildcardUsed
      && r.players[i].(wildcardUsed := s.players[i].wildcardUsed) == s.players[i]
  {
    var p := s.players[i];
    if !p.eliminated then
      s.(players := s.players[i := p.(wildcardUsed := !p.wildcardUsed)])
    else s
  }

  /** `resetGame`: whatever the state, back to an empty game on the setup
      screen with no word, no players and no winner history. */
  function ResetGame(s: GameState): (r: GameState)
    ensures ScreenOf(r) == Setup
    ensures r.gameWord == "" && r.players == [] && !r.wasWinner
  {
    Initial
  }

  /** "Back to Game" on the results screen: only the winner is cleared, which
      leaves the results screen. */
  function DismissWinner(s: GameState): (r: GameState)
    ensures r.winner == "" && r.(winner := s.winner) == s
    ensures ScreenOf(r) != Results
  {
    s.(winner := "")
  }

  /** "Back to Leaderboard": if exactly one player is still in, that player is
      (again) the winner; otherwise nothing changes. Only the winner can change. */
  function RecheckWinner(s: GameState): (r: GameState)
    ensures r.(winner := s.winner) == s
    ensures |ActivePlayers(s.players)| == 1 ==> r.winner == ActivePlayers(s.players)[0].name
    ensures |ActivePlayers(s.players)| != 1 ==> r == s
  {
    var active := ActivePlayers(s.players);
    if |active| == 1 then s.(winner := active[0].name) else s
  }
}

=== FILE: game_props.dfy ===
/** Properties of the handlers in module Game: the per-player progress
    invariant each one keeps, the inverses between handlers, and the
    behaviours of `src/App.jsx` that a reader may not expect. */
module GameProperties {
  import opened JsText
  import opened Game

  // ---------------------------------------------------------------------
  // Winner detection and the independent single-survivor description
  // ---------------------------------------------------------------------

  /** The filtered active list holds exactly the players still in, each as
      often as it occurs among them. */
  lemma {:induction false} ActiveIsFilter(ps: seq<Player>)
    ensures forall p: Player :: p in ActivePlayers(ps) <==> p in ps && !p.eliminated
    ensures forall p: Player :: !p.eliminated ==> multiset(ActivePlayers(ps))[p] == multiset(ps)[p]
  {
    if ps != [] {
      ActiveIsFilter(ps[1..]);
      assert ps == [ps[0]] + ps[1..];
    }
  }

  /** The filtered active list has length one exactly when one seat holds a
      player still in the game, and its element is that player. */
  lemma {:induction false} SoleActiveIsSurvivor(ps: seq<Player>)
    requires |ActivePlayers(ps)| == 1
    ensures SoleSurvivor(ps, ActivePlayers(ps)[0].name)
  {
    var k := SoleActiveSeat(ps);
    assert ps[k].name == ActivePlayers(ps)[0].name;
  }

  /** The seat of the only active player, when the filter keeps exactly one. */
  lemma {:induction false} SoleActiveSeat(ps: seq<Player>) returns (k: nat)
    requires |ActivePlayers(ps)| == 1
    ensures k < |ps| && !ps[k].eliminated && ps[k] == ActivePlayers(ps)[0]
    ensures forall j :: 0 <= j < |ps| && !ps[j].eliminated ==> j == k
  {
    assert ps != [];
    var rest := ActivePlayers(ps[1..]);
    if ps[0].eliminated {
      assert ActivePlayers(ps) == rest;
      var k' := SoleActiveSeat(ps[1..]);
      k := k' + 1;
      forall j | 0 <= j < |ps| && !ps[j].eliminated ensures j == k {
        assert j != 0;
        assert ps[j] == ps[1..][j - 1];
      }
    } else {
      assert ActivePlayers(ps) == [ps[0]] + rest;
      NoneActive(ps[1..]);
      k := 0;
      forall j | 1 <= j < |ps| ensures ps[j].eliminated {
        assert ps[j] == ps[1..][j - 1];
      }
    }
  }

  /** An empty active list means every player is eliminated, and back. */
  lemma {:induction false} NoneActive(ps: seq<Player>)
    ensures ActivePlayers(ps) == [] <==> forall j :: 0 <= j < |ps| ==> ps[j].eliminated
  {
    if ps != [] {
      NoneActive(ps[1..]);
      assert forall j :: 1 <= j < |ps| ==> ps[j] == ps[1..][j - 1];
    }
  }

  /** Conversely, a single survivor called `n` is exactly what the filter
      reports. */
  lemma {:induction false} SurvivorIsSoleActive(ps: seq<Player>, n: string)
    requires SoleSurvivor(ps, n)
    ensures |ActivePlayers(ps)| == 1 && ActivePlayers(ps)[0].name == n
  {
    var k :| 0 <= k < |ps| && !ps[k].eliminated && ps[k].name == n &&
      forall j :: 0 <= j < |ps| && !ps[j].eliminated ==> j == k;
    ActiveOfSingleSeat(ps, k);
  }

  lemma {:induction false} ActiveOfSingleSeat(ps: seq<Player>, k: nat)
    requires k < |ps| && !ps[k].eliminated
    requires forall j :: 0 <= j < |ps| && !ps[j].eliminated ==> j == k
    ensures ActivePlayers(ps) == [ps[k]]
  {
    var tail := ps[1..];
    if k == 0 {
      NoneActive(tail);
      assert forall j :: 0 <= j < |tail| ==> tail[j] == ps[j + 1];
    } else {
      forall j | 0 <= j < |tail| && !tail[j].eliminated ensures j == k - 1 {
        assert tail[j] == ps[j + 1];
      }
      ActiveOfSingleSeat(tail, k - 1);
    }
  }

  // ---------------------------------------------------------------------
  // Player list handlers
  // ---------------------------------------------------------------------

  /** Removing the seat a successful `AddPlayer` just filled gives back the
      state before it. */
  lemma AddThenRemovePlayer(s: GameState, input: string)
    requires Trim(input) != "" && !HasName(s.players, input)
    ensures RemovePlayer(AddPlayer(s, input), |s.players|) == s
  {
    var t := AddPlayer(s, input);
    assert t.players[..|s.players|] == s.players;
  }

  /** The duplicate check compares the untrimmed input: with a player "A"
      seated, the input " A" seats a second player named "A". */
  lemma PaddedInputAddsDuplicate()
    ensures var s := GameState("", [NewPlayer("A")], false, "", false);
            AddPlayer(s, " A").players == [NewPlayer("A"), NewPlayer("A")]
  {
    var s := GameState("", [NewPlayer("A")], false, "", false);
    var n := Trim(" A");
    PaddedNameTrims();
    PaddedInputIsNew();
    assert n != "" && !HasName(s.players, " A");
    var r := AddPlayer(s, " A");
    assert r == s.(players := s.players + [NewPlayer(n)]);
    assert NewPlayer(n) == NewPlayer("A");
  }

  /** Nobody in a table of one "A" is named " A". */
  lemma PaddedInputIsNew()
    ensures !HasName([NewPlayer("A")], " A")
  {
    var ps := [NewPlayer("A")];
    assert |ps| == 1 && ps[0].name == "A" != " A";
  }

  /** " A" trims to "A". */
  lemma PaddedNameTrims()
    ensures Trim(" A") == "A"
  {
    var a := "A";
    assert !IsSpace(a[0]) && !IsSpace(a[|a| - 1]);
    assert TrimStart(a) == a;
    assert TrimEnd(a) == a;
    var pa := " A";
    assert IsSpace(pa[0]) && pa[1..] == a;
    assert TrimStart(pa) == TrimStart(a);
  }

  /** The start guard tests the raw word, so a word of blanks starts a game
      whose stripped word is empty, and then no tap ever collects a letter. */
  lemma BlankWordStartsEndlessGame(s: GameState, i: nat)
    requires s.gameWord != "" && AllSpace(s.gameWord) && |s.players| >= 2 && i < |s.players|
    ensures StartGame(s).gameStarted
    ensures AddLetter(StartGame(s), i) == StartGame(s)
  {
    CleanOfAllSpace(s.gameWord);
  }

  // ---------------------------------------------------------------------
  // The progress invariant: letters are a prefix of the stripped word and
  // `eliminated` marks exactly the completed words
  // ---------------------------------------------------------------------

  /** Player `p`'s letters are a prefix of the stripped word `clean`, and `p` is
      eliminated exactly when it has spelled a non-empty `clean` in full. */
  predicate Progress(p: Player, clean: string) {
    && p.letters <= clean
    && (p.eliminated <==> clean != [] && p.letters == clean)
  }

  predicate AllProgress(ps: seq<Player>, clean: string) {
    forall k :: 0 <= k < |ps| ==> Progress(ps[k], clean)
  }

  /** `addLetter` keeps the progress invariant: the collected letter is the
      next one of the stripped word and elimination is set at completion. */
  lemma AddLetterKeepsProgress(s: GameState, i: nat)
    requires i < |s.players|
    requires AllProgress(s.players, Clean(s.gameWord))
    ensures AllProgress(AddLetter(s, i).players, Clean(s.gameWord))
  {
    var clean := Clean(s.gameWord);
    var r := AddLetter(s, i);
    if AddsLetter(s, i) {
      var n := |s.players[i].letters|;
      assert s.players[i].letters == clean[..n];
      assert r.players[i].letters == clean[..n + 1];
      assert Progress(r.players[i], clean);
      assert forall k :: 0 <= k < |r.players| && k != i ==> r.players[k] == s.players[k];
    }
  }

  /** `removeLetter` keeps the progress invariant: a shorter prefix is never
      the whole word, and the player is back in. */
  lemma RemoveLetterKeepsProgress(s: GameState, i: nat)
    requires i < |s.players|
    requires AllProgress(s.players, Clean(s.gameWord))
    ensures AllProgress(RemoveLetter(s, i).players, Clean(s.gameWord))
  {
    var clean := Clean(s.gameWord);
    var r := RemoveLetter(s, i);
    if s.players[i].letters != [] {
      var q := r.players[i];
      assert q.letters == s.players[i].letters[..|q.letters|];
      assert q.letters <= clean;
      assert q.letters != clean;
    }
    assert forall k :: 0 <= k < |r.players| && k != i ==> r.players[k] == s.players[k];
  }

  /** `useWildcard` keeps the progress invariant since it touches neither
      letters nor elimination. */
  lemma UseWildcardKeepsProgress(s: GameState, i: nat)
    requires i < |s.players|
    requires AllProgress(s.players, Clean(s.gameWord))
    ensures AllProgress(UseWildcard(s, i).players, Clean(s.gameWord))
    ensures forall k :: 0 <= k < |s.players| ==>
      UseWildcard(s, i).players[k].letters == s.players[k].letters &&
      UseWildcard(s, i).players[k].eliminated == s.players[k].eliminated
  {
  }

  /** Toggling the wildcard twice restores the state. */
  lemma UseWildcardTwice(s: GameState, i: nat)
    requires i < |s.players|
    ensures UseWildcard(UseWildcard(s, i), i) == s
  {
  }

  /** Undoing a collected letter restores every player; of the rest only the
      winner (now cleared) and the winner flag can differ. */
  lemma RemoveLetterUndoesAddLetter(s: GameState, i: nat)
    requires i < |s.players| && AddsLetter(s, i)
    ensures RemoveLetter(AddLetter(s, i), i).players == s.players
    ensures RemoveLetter(AddLetter(s, i), i) == s.(winner := "", wasWinner := AddLetter(s, i).wasWinner)
  {
    var t := AddLetter(s, i);
    var u := RemoveLetter(t, i);
    var p := s.players[i];
    assert t.players[i].letters[..|p.letters|] == p.letters;
    assert u.players[i] == p;
    assert u.players == s.players;
  }

  // ---------------------------------------------------------------------
  // Repeated taps on one player
  // ---------------------------------------------------------------------

  /** The state after `k` taps on player `i`. */
  function Taps(s: GameState, i: nat, k: nat): (r: GameState)
    requires i < |s.players|
    ensures |r.players| == |s.players| && r.gameWord == s.gameWord
    decreases k
  {
    if k == 0 then s else Taps(AddLetter(s, i), i, k - 1)
  }

  /** Player `p` after `k` collections from the stripped word `clean`. */
  function Collected(p: Player, clean: string, k: nat): Player
    decreases k
  {
    if k == 0 then p else Collected(CollectLetter(p, clean), clean, k - 1)
  }

  function Min(a: int, b: int): int {
    if a <= b then a else b
  }

  /** Player `i` after `k` taps is player `i` after `k` collections: the
      other players and the winner never feed back into its letters. */
  lemma {:induction false} TapsCollect(s: GameState, i: nat, k: nat)
    requires i < |s.players|
    ensures Taps(s, i, k).players[i] == Collected(s.players[i], Clean(s.gameWord), k)
    decreases k
  {
    if k > 0 {
      var t := AddLetter(s, i);
      assert t.gameWord == s.gameWord;
      assert t.players[i] == CollectLetter(s.players[i], Clean(s.gameWord));
      TapsCollect(t, i, k - 1);
      assert Taps(s, i, k) == Taps(t, i, k - 1);
    }
  }

  /** One collection keeps the progress invariant and lengthens the letters
      by one, up to the length of the stripped word. */
  lemma CollectKeepsProgress(p: Player, clean: string)
    requires Progress(p, clean)
    ensures Progress(CollectLetter(p, clean), clean)
    ensures |CollectLetter(p, clean).letters| == Min(|p.letters| + 1, |clean|)
  {
    var n := |p.letters|;
    if !p.eliminated && n < |clean| {
      assert p.letters == clean[..n];
      assert clean[..n] + [clean[n]] == clean[..n + 1];
    }
  }

  /** Any run of `k` collections keeps the progress invariant and grows the
      letters by one each time until the stripped word is spelled. */
  lemma {:induction false} CollectedKeepsProgress(p: Player, clean: string, k: nat)
    requires Progress(p, clean)
    ensures Progress(Collected(p, clean, k), clean)
    ensures |Collected(p, clean, k).letters| == Min(|p.letters| + k, |clean|)
    decreases k
  {
    if k > 0 {
      CollectKeepsProgress(p, clean);
      CollectedKeepsProgress(CollectLetter(p, clean), clean, k - 1);
    }
  }

  /** From no letters, `k` collections spell the first `k` letters of the
      stripped word (all of it once `k` reaches its length), and the player
      is eliminated exactly when a non-empty stripped word has been spelled. */
  lemma CollectedSpellsThePrefix(p: Player, clean: string, k: nat)
    requires p.letters == [] && !p.eliminated
    ensures var q := Collected(p, clean, k);
      && q.letters == clean[..Min(k, |clean|)]
      && (q.eliminated <==> clean != [] && k >= |clean|)
  {
    assert Progress(p, clean);
    CollectedKeepsProgress(p, clean, k);
    var q := Collected(p, clean, k);
    assert |q.letters| == Min(k, |clean|);
    assert q.letters == clean[..|q.letters|];
  }

  /** From no letters, `k` taps on player `i` spell the first `k` letters of
      the stripped word (all of it once `k` reaches its length), and the player
      is eliminated exactly when a non-empty stripped word has been spelled. */
  lemma TapsSpellThePrefix(s: GameState, i: nat, k: nat)
    requires i < |s.players|
    requires s.players[i].letters == [] && !s.players[i].eliminated
    ensures var clean, p := Clean(s.gameWord), Taps(s, i, k).players[i];
      && p.letters == clean[..Min(k, |clean|)]
      && (p.eliminated <==> clean != [] && k >= |clean|)
  {
    TapsCollect(s, i, k);
    CollectedSpellsThePrefix(s.players[i], Clean(s.gameWord), k);
  }

  /** How many of the players hold the whole stripped word `clean`. */
  function CountComplete(ps: seq<Player>, clean: string): (n: nat)
    ensures n <= |ps|
  {
    if ps == [] then 0
    else (if ps[0].letters == clean then 1 else 0) + CountComplete(ps[1..], clean)
  }

  /** The number of players still in equals the number of players minus those
      who have spelled a non-empty stripped word in full. */
  lemma {:induction false} ActiveCountMatchesCompletions(ps: seq<Player>, clean: string)
    requires clean != [] && AllProgress(ps, clean)
    ensures |ActivePlayers(ps)| == |ps| - CountComplete(ps, clean)
  {
    if ps != [] {
      assert AllProgress(ps[1..], clean) by {
        forall k | 0 <= k < |ps[1..]| ensures Progress(ps[1..][k], clean) {
          assert ps[1..][k] == ps[k + 1];
        }
      }
      assert Progress(ps[0], clean);
      ActiveCountMatchesCompletions(ps[1..], clean);
    }
  }

  // ---------------------------------------------------------------------
  // Winner handling
  // ---------------------------------------------------------------------

  /** A winner that `addLetter` declares (after a collected letter, with one
      player left in) is always the single survivor. */
  lemma AddLetterDeclaresSoleSurvivor(s: GameState, i: nat)
    requires i < |s.players|
    requires AddsLetter(s, i) && |ActivePlayers(AddLetter(s, i).players)| == 1
    ensures SoleSurvivor(AddLetter(s, i).players, AddLetter(s, i).winner)
    ensures AddLetter(s, i).wasWinner
  {
    SoleActiveIsSurvivor(AddLetter(s, i).players);
  }

  /** A winner that the leaderboard re-check declares (with one player left
      in) is always the single survivor. */
  lemma RecheckDeclaresSoleSurvivor(s: GameState)
    requires |ActivePlayers(s.players)| == 1
    ensures SoleSurvivor(s.players, RecheckWinner(s).winner)
  {
    SoleActiveIsSurvivor(s.players);
  }

  /** "Back to Game" followed by "Back to Leaderboard" returns to the same
      results screen while the declared winner is still the single survivor. */
  lemma DismissThenRecheck(s: GameState)
    requires s.winner != "" && SoleSurvivor(s.players, s.winner)
    ensures RecheckWinner(DismissWinner(s)) == s
  {
    SurvivorIsSoleActive(s.players, s.winner);
  }
}

=== FILE: jstext.dfy ===
/** The two string operations the game applies to user input, with the
    semantics of JavaScript: `String.prototype.trim` (player names) and
    `replace(/\s/g, '')` (the target word). Both use the same whitespace set,
    ECMAScript's WhiteSpace plus LineTerminator code points.
    A `string` here is a sequence of characters up to U+FFFF, each of which
    JavaScript stores as one UTF-16 code unit; characters above U+FFFF are
    not represented. */
module JsText {

  /** The ECMAScript whitespace and line-terminator code points matched by `\s`
      and removed by `trim()`. */
  predicate IsSpace(c: char) {
    || c == '\U{0009}' || c == '\U{000A}' || c == '\U{000B}' || c == '\U{000C}'
    || c == '\U{000D}' || c == '\U{0020}' || c == '\U{00A0}' || c == '\U{1680}'
    || ('\U{2000}' <= c <= '\U{200A}')
    || c == '\U{2028}' || c == '\U{2029}' || c == '\U{202F}' || c == '\U{205F}'
    || c == '\U{3000}' || c == '\U{FEFF}'
  }

  /** True when every character of `s` is whitespace (the empty string included). */
  predicate AllSpace(s: string) {
    forall k :: 0 <= k < |s| ==> IsSpace(s[k])
  }

  /** Drops the leading whitespace: the result is the longest suffix of `s`
      that does not start with whitespace. */
  function TrimStart(s: string): (r: string)
    ensures |r| <= |s| && r == s[|s| - |r|..]
    ensures AllSpace(s[..|s| - |r|])
    ensures r == [] || !IsSpace(r[0])
  {
    if s == [] || !IsSpace(s[0]) then s
    else
      var r := TrimStart(s[1..]);
      assert s[..|s| - |r|] == [s[0]] + s[1..][..|s| - 1 - |r|];
      r
  }

  /** Drops the trailing whitespace: the result is the longest prefix of `s`
      that does not end with whitespace. */
  function TrimEnd(s: string): (r: string)
    ensures r <= s
    ensures AllSpace(s[|r|..])
    ensures r == [] || !IsSpace(r[|r| - 1])
  {
    if s == [] || !IsSpace(s[|s| - 1]) then s
    else
      var r := TrimEnd(s[..|s| - 1]);
      assert s[|r|..] == s[..|s| - 1][|r|..] + [s[|s| - 1]];
      r
  }

  /** `r` is `s` with the whitespace prefix `s[..a]` and a whitespace suffix
      cut off. */
  predicate CutAt(s: string, r: string, a: int) {
    0 <= a <= |s| - |r| && r == s[a..a + |r|] && AllSpace(s[..a]) && AllSpace(s[a + |r|..])
  }

  /** `String.prototype.trim`: drops whitespace at both ends. The result is
      the input with only a whitespace prefix and a whitespace suffix cut
      off; it is empty exactly when the input is all whitespace, and
      otherwise starts and ends with a non-whitespace character. */
  function Trim(s: string): (r: string)
    ensures |r| <= |s|
    ensures exists a :: CutAt(s, r, a)
    ensures r == [] <==> AllSpace(s)
    ensures r != [] ==> !IsSpace(r[0]) && !IsSpace(r[|r| - 1])
  {
    var t := TrimStart(s);
    var r := TrimEnd(t);
    CutOfParts(s, t, r);
    assert CutAt(s, r, |s| - |t|);
    r
  }

  /** Cutting the leading whitespace off `s`, leaving `t`, and then the
      trailing whitespace off `t`, leaving `r`, cuts `r` out of `s` with
      non-whitespace ends, and leaves nothing exactly when `s` is all
      whitespace. */
  lemma CutOfParts(s: string, t: string, r: string)
    requires |t| <= |s| && t == s[|s| - |t|..] && AllSpace(s[..|s| - |t|])
    requires t == [] || !IsSpace(t[0])
    requires r <= t && AllSpace(t[|r|..])
    requires r == [] || !IsSpace(r[|r| - 1])
    ensures CutAt(s, r, |s| - |t|)
    ensures r == [] <==> AllSpace(s)
    ensures r != [] ==> !IsSpace(r[0]) && !IsSpace(r[|r| - 1])
  {
    var a := |s| - |t|;
    assert r == t[..|r|] == s[a..a + |r|];
    assert t[|r|..] == s[a + |r|..];
    if r == [] {
      assert t == [];
      assert s == s[..a];
    } else {
      assert r[0] == t[0];
      assert s[a + |r| - 1] == r[|r| - 1];
    }
  }

  /** `replace(/\s/g, '')`: every whitespace character removed, the others
      kept in order. */
  function Clean(w: string): (r: string)
    ensures |r| <= |w|
    ensures forall k :: 0 <= k < |r| ==> !IsSpace(r[k])
    ensures forall c :: c in r <==> c in w && !IsSpace(c)
  {
    if w == [] then []
    else
      var rest := Clean(w[1..]);
      var r := (if IsSpace(w[0]) then [] else [w[0]]) + rest;
      assert forall c :: c in w <==> c == w[0] || c in w[1..] by {
        assert w == [w[0]] + w[1..];
      }
      r
  }

  /** Clean of a single character: whitespace disappears, anything else
      stays. */
  lemma CleanOfChar(c: char)
    ensures Clean([c]) == if IsSpace(c) then [] else [c]
  {
    assert [c][1..] == [];
  }

  /** Clean of a word that starts with `c`. */
  lemma CleanCons(c: char, w: string)
    ensures Clean([c] + w) == (if IsSpace(c) then [] else [c]) + Clean(w)
  {
    assert ([c] + w)[0] == c && ([c] + w)[1..] == w;
  }

  /** Clean works piecewise: stripping a concatenation strips each part and
      keeps them in order. With `CleanOfChar` this pins `Clean` down on every
      word: the non-whitespace characters, in order and with repetitions. */
  lemma {:induction false} CleanAppend(a: string, b: string)
    ensures Clean(a + b) == Clean(a) + Clean(b)
  {
    if a == [] {
      assert a + b == b;
    } else {
      var c, rest := a[0], a[1..];
      var head := if IsSpace(c) then [] else [c];
      assert a == [c] + rest;
      assert a + b == [c] + (rest + b);
      calc {
        Clean(a + b);
        { CleanCons(c, rest + b); }
        head + Clean(rest + b);
        { CleanAppend(rest, b); }
        head + (Clean(rest) + Clean(b));
        { AppendAssoc(head, Clean(rest), Clean(b)); }
        (head + Clean(rest)) + Clean(b);
        { CleanCons(c, rest); }
        Clean(a) + Clean(b);
      }
    }
  }

  lemma AppendAssoc(x: string, y: string, z: string)
    ensures x + (y + z) == (x + y) + z
  {
  }

  /** Clean fixes a string that holds no whitespace. */
  lemma {:induction false} CleanOfSpaceless(w: string)
    requires forall k :: 0 <= k < |w| ==> !IsSpace(w[k])
    ensures Clean(w) == w
  {
    if w != [] {
      CleanOfSpaceless(w[1..]);
    }
  }

  /** Clean is idempotent: stripping an already stripped word changes nothing. */
  lemma CleanIdempotent(w: string)
    ensures Clean(Clean(w)) == Clean(w)
  {
    CleanOfSpaceless(Clean(w));
  }

  /** A word made only of whitespace cleans to the empty string. */
  lemma {:induction false} CleanOfAllSpace(w: string)
    requires AllSpace(w)
    ensures Clean(w) == []
  {
    if w != [] {
      CleanOfAllSpace(w[1..]);
    }
  }
}

=== FILE: ranking.dfy ===
/** The final ranking on the results screen: the players sorted with the
    comparator of `src/App.jsx` (winner first, then fewer letters first).
    `Array.prototype.sort` is stable, so the sort is modelled as a stable
    insertion sort; `RankIsTheStableSort` shows that every stable sort by the
    same order yields the same ranking. */
module Ranking {
  import opened Game

  /** The comparator: negative puts `a` first, positive puts `b` first. */
  function Compare(a: Player, b: Player, winner: string): int {
    if a.name == winner then -1
    else if b.name == winner then 1
    else |a.letters| - |b.letters|
  }

  /** The rank key: the winner before everybody (-1), then letter count. */
  function Key(p: Player, winner: string): int {
    if p.name == winner then -1 else |p.letters|
  }

  /** Unless both players carry the winner's name, the comparator orders
      exactly as the key does. When both do, it answers -1 both ways and is
      no consistent order at all. */
  lemma CompareAgreesWithKey(a: Player, b: Player, winner: string)
    ensures !(a.name == winner && b.name == winner) ==>
      && (Compare(a, b, winner) < 0 <==> Key(a, winner) < Key(b, winner))
      && (Compare(a, b, winner) == 0 <==> Key(a, winner) == Key(b, winner))
      && (Compare(a, b, winner) > 0 <==> Key(a, winner) > Key(b, winner))
    ensures a.name == winner && b.name == winner ==>
      Compare(a, b, winner) < 0 && Compare(b, a, winner) < 0
  {
  }

  /** Non-decreasing rank key from front to back. */
  ghost predicate Sorted(r: seq<Player>, winner: string) {
    forall j, k :: 0 <= j < k < |r| ==> Key(r[j], winner) <= Key(r[k], winner)
  }

  /** Every key in `r` is at least `b`. */
  ghost predicate KeysAtLeast(r: seq<Player>, winner: string, b: int) {
    forall j :: 0 <= j < |r| ==> b <= Key(r[j], winner)
  }

  /** Inserts `x` in front of the first element the comparator does not put
      after it, so that `x` stays ahead of later equals. */
  function Insert(x: Player, ys: seq<Player>, winner: string): (r: seq<Player>)
    ensures multiset(r) == multiset(ys) + multiset{x}
    ensures |r| == |ys| + 1
  {
    if ys == [] || Compare(x, ys[0], winner) <= 0 then [x] + ys
    else
      assert ys == [ys[0]] + ys[1..];
      [ys[0]] + Insert(x, ys[1..], winner)
  }

  /** A lower bound on the keys survives inserting an element above it. */
  lemma {:induction false} InsertKeysAtLeast(x: Player, ys: seq<Player>, winner: string, b: int)
    requires KeysAtLeast(ys, winner, b) && b <= Key(x, winner)
    ensures KeysAtLeast(Insert(x, ys, winner), winner, b)
  {
    if !(ys == [] || Compare(x, ys[0], winner) <= 0) {
      InsertKeysAtLeast(x, ys[1..], winner, b);
      var r := Insert(x, ys, winner);
      assert forall k :: 1 <= k < |r| ==> r[k] == Insert(x, ys[1..], winner)[k - 1];
    }
  }

  /** Inserting into a sorted sequence keeps it sorted. */
  lemma {:induction false} InsertSorted(x: Player, ys: seq<Player>, winner: string)
    requires Sorted(ys, winner)
    ensures Sorted(Insert(x, ys, winner), winner)
  {
    var r := Insert(x, ys, winner);
    if ys == [] || Compare(x, ys[0], winner) <= 0 {
      assert KeysAtLeast(ys, winner, Key(x, winner));
      assert forall k :: 1 <= k < |r| ==> r[k] == ys[k - 1];
    } else {
      var rest := Insert(x, ys[1..], winner);
      assert Sorted(ys[1..], winner);
      InsertSorted(x, ys[1..], winner);
      assert KeysAtLeast(ys[1..], winner, Key(ys[0], winner));
      InsertKeysAtLeast(x, ys[1..], winner, Key(ys[0], winner));
      assert r == [ys[0]] + rest;
      assert forall k :: 1 <= k < |r| ==> r[k] == rest[k - 1];
    }
  }

  /** Stable insertion sort of the players by the comparator: a permutation
      of the input (`RankSorted`: in non-decreasing rank key). */
  function Rank(ps: seq<Player>, winner: string): (r: seq<Player>)
    ensures multiset(r) == multiset(ps)
    ensures |r| == |ps|
  {
    if ps == [] then []
    else
      assert ps == [ps[0]] + ps[1..];
      Insert(ps[0], Rank(ps[1..], winner), winner)
  }

  /** The ranking is in non-decreasing rank key. */
  lemma {:induction false} RankSorted(ps: seq<Player>, winner: string)
    ensures Sorted(Rank(ps, winner), winner)
  {
    if ps != [] {
      RankSorted(ps[1..], winner);
      InsertSorted(ps[0], Rank(ps[1..], winner), winner);
    }
  }

  /** The ranking shown while `winner` is set. */
  function FinalRanking(s: GameState): (r: seq<Player>)
    ensures multiset(r) == multiset(s.players)
    ensures Sorted(r, s.winner)
  {
    RankSorted(s.players, s.winner);
    Rank(s.players, s.winner)
  }

  // ---------------------------------------------------------------------
  // Stability
  // ---------------------------------------------------------------------

  /** The players of `r` with rank key `k`, in their order in `r`. */
  function Bucket(r: seq<Player>, winner: string, k: int): seq<Player> {
    if r == [] then []
    else (if Key(r[0], winner) == k then [r[0]] else []) + Bucket(r[1..], winner, k)
  }

  /** Inserting `x` adds it at the front of its own bucket and leaves every
      other bucket alone: `x` only ever passes players of a strictly smaller
      key. */
  lemma {:induction false} InsertBucket(x: Player, ys: seq<Player>, winner: string, k: int)
    ensures Bucket(Insert(x, ys, winner), winner, k) ==
      (if Key(x, winner) == k then [x] else []) + Bucket(ys, winner, k)
  {
    if ys == [] || Compare(x, ys[0], winner) <= 0 {
      assert ([x] + ys)[1..] == ys;
    } else {
      InsertBucket(x, ys[1..], winner, k);
      var r := Insert(x, ys, winner);
      var head := if Key(ys[0], winner) == k then [ys[0]] else [];
      var mine := if Key(x, winner) == k then [x] else [];
      assert r[0] == ys[0] && r[1..] == Insert(x, ys[1..], winner);
      assert Bucket(r, winner, k) == head + Bucket(r[1..], winner, k);
      assert Bucket(ys, winner, k) == head + Bucket(ys[1..], winner, k);
      assert head == [] || mine == [];
      assert head + (mine + Bucket(ys[1..], winner, k)) == mine + (head + Bucket(ys[1..], winner, k));
    }
  }

  /** Players with the same rank key keep their relative order: each bucket
      of the ranking is the same bucket of the input. */
  lemma {:induction false} RankIsStable(ps: seq<Player>, winner: string, k: int)
    ensures Bucket(Rank(ps, winner), winner, k) == Bucket(ps, winner, k)
  {
    if ps != [] {
      RankIsStable(ps[1..], winner, k);
      InsertBucket(ps[0], Rank(ps[1..], winner), winner, k);
    }
  }

  /** A non-empty bucket of a sorted sequence holds no key below the first. */
  lemma {:induction false} BucketKeyBound(r: seq<Player>, winner: string, k: int)
    requires Sorted(r, winner) && Bucket(r, winner, k) != []
    ensures r != [] && Key(r[0], winner) <= k
  {
    if Key(r[0], winner) != k {
      assert Sorted(r[1..], winner);
      BucketKeyBound(r[1..], winner, k);
    }
  }

  /** A sequence sorted by rank key is determined by its buckets. */
  lemma {:induction false} SortedByBuckets(r1: seq<Player>, r2: seq<Player>, winner: string)
    requires Sorted(r1, winner) && Sorted(r2, winner)
    requires forall k :: Bucket(r1, winner, k) == Bucket(r2, winner, k)
    ensures r1 == r2
    decreases |r1|
  {
    SameFirst(r1, r2, winner);
    if r1 != [] {
      SameTailBuckets(r1, r2, winner);
      SortedTail(r1, winner);
      SortedTail(r2, winner);
      SortedByBuckets(r1[1..], r2[1..], winner);
      assert r1 == [r1[0]] + r1[1..] && r2 == [r2[0]] + r2[1..];
    }
  }

  lemma SortedTail(r: seq<Player>, winner: string)
    requires Sorted(r, winner) && r != []
    ensures Sorted(r[1..], winner)
  {
    assert forall j :: 0 <= j < |r| - 1 ==> r[1..][j] == r[j + 1];
  }

  /** Two sorted sequences with the same buckets are both empty or start
      with the same player. */
  lemma SameFirst(r1: seq<Player>, r2: seq<Player>, winner: string)
    requires Sorted(r1, winner) && Sorted(r2, winner)
    requires forall k :: Bucket(r1, winner, k) == Bucket(r2, winner, k)
    ensures r1 == [] <==> r2 == []
    ensures r1 != [] ==> r1[0] == r2[0]
  {
    if r1 != [] {
      assert Bucket(r1, winner, Key(r1[0], winner)) != [];
      BucketKeyBound(r2, winner, Key(r1[0], winner));
    }
    if r2 != [] {
      assert Bucket(r2, winner, Key(r2[0], winner)) != [];
      BucketKeyBound(r1, winner, Key(r2[0], winner));
    }
    if r1 != [] && r2 != [] {
      var key := Key(r1[0], winner);
      assert Bucket(r1, winner, key)[0] == r1[0];
      assert Bucket(r2, winner, key)[0] == r2[0];
    }
  }

  /** Dropping the same first player from both keeps the buckets equal. */
  lemma SameTailBuckets(r1: seq<Player>, r2: seq<Player>, winner: string)
    requires r1 != [] && r2 != [] && r1[0] == r2[0]
    requires forall k :: Bucket(r1, winner, k) == Bucket(r2, winner, k)
    ensures forall k :: Bucket(r1[1..], winner, k) == Bucket(r2[1..], winner, k)
  {
    forall k ensures Bucket(r1[1..], winner, k) == Bucket(r2[1..], winner, k) {
      assert Bucket(r1, winner, k) == Bucket(r2, winner, k);
      var head := if Key(r1[0], winner) == k then [r1[0]] else [];
      assert Bucket(r1, winner, k) == head + Bucket(r1[1..], winner, k);
      assert Bucket(r2, winner, k) == head + Bucket(r2[1..], winner, k);
      assert Bucket(r1[1..], winner, k) == Bucket(r1, winner, k)[|head|..];
    }
  }

  /** Any sequence that is sorted by rank key and keeps the input order within
      each key is exactly `Rank`: so whatever stable sort the JavaScript engine
      runs, its result is this one as long as the comparator is consistent on
      distinct players, which holds when at most one carries the winner's
      name. */
  lemma RankIsTheStableSort(ps: seq<Player>, r: seq<Player>, winner: string)
    requires Sorted(r, winner)
    requires forall k :: Bucket(r, winner, k) == Bucket(ps, winner, k)
    ensures r == Rank(ps, winner)
  {
    forall k ensures Bucket(r, winner, k) == Bucket(Rank(ps, winner), winner, k) {
      RankIsStable(ps, winner, k);
    }
    RankSorted(ps, winner);
    SortedByBuckets(r, Rank(ps, winner), winner);
  }

  // ---------------------------------------------------------------------
  // The shape of the ranking
  // ---------------------------------------------------------------------

  /** When some player carries the winner's name, the ranking starts with
      such a player; after the winner's namesakes, the others follow with
      non-decreasing letter counts. */
  lemma RankShape(ps: seq<Player>, winner: string)
    ensures HasName(ps, winner) ==> Rank(ps, winner)[0].name == winner
    ensures var r := Rank(ps, winner);
      forall j, k :: 0 <= j < k < |r| && r[k].name == winner ==> r[j].name == winner
    ensures var r := Rank(ps, winner);
      forall j, k :: 0 <= j < k < |r| && r[j].name != winner && r[k].name != winner ==>
        |r[j].letters| <= |r[k].letters|
  {
    var r := Rank(ps, winner);
    RankSorted(ps, winner);
    if HasName(ps, winner) {
      var m :| 0 <= m < |ps| && ps[m].name == winner;
      assert ps[m] in multiset(ps);
      assert ps[m] in multiset(r);
      var n :| 0 <= n < |r| && r[n] == ps[m];
      assert Key(r[0], winner) <= Key(r[n], winner) == -1;
    }
  }

  /** The ranking example: A with three letters, B (the winner) and C with
      one letter each, joined in that order, rank as B, C, A. */
  lemma RankExample()
    ensures var a, b, c := Player("A", "ABC", false, false),
                           Player("B", "A", false, false),
                           Player("C", "A", false, false);
            Rank([a, b, c], "B") == [b, c, a]
  {
    var a, b, c := Player("A", "ABC", false, false),
                   Player("B", "A", false, false),
                   Player("C", "A", false, false);
    assert [a, b, c][1..] == [b, c] && [b, c][1..] == [c];
    assert Rank([c], "B") == [c];
    assert Insert(b, [c], "B") == [b, c];
    assert Insert(a, [b, c], "B") == [b] + Insert(a, [c], "B");
    assert Insert(a, [c], "B") == [c, a];
  }
}

=== FILE: session.dfy ===
/** The game as the user drives it: each screen offers only some controls,
    and an event is a click on one of them. Under this discipline the
    progress invariant and the winner invariant hold in every reachable state. */
module Session {
  import opened JsText
  import opened Game
  import opened GameProperties
  import opened Ranking

  /** A click or input on one of the rendered controls. */
  datatype Event =
    | PickWord(word: string)
    | SubmitName(input: string)
    | DropPlayer(index: int)
    | PressStart
    | TapLetters(seat: nat)
    | UndoLetter(seat: nat)
    | ToggleWildcard(seat: nat)
    | PressReset
    | BackToGame
    | BackToLeaderboard

  /** Whether the current screen renders the control behind `e`: the setup
      screen has the word input, the name input, the per-player remove buttons
      and Start; the board has the letter tracks (for players still in), the
      undo button (for players holding letters), the wildcard button (for
      players still in), reset, and "Back to Leaderboard" once a winner was
      ever declared; the results screen has "Back to Game" and "New Game". */
  predicate Available(s: GameState, e: Event) {
    match e
    case PickWord(_) => ScreenOf(s) == Setup
    case SubmitName(_) => ScreenOf(s) == Setup
    case DropPlayer(i) => ScreenOf(s) == Setup && 0 <= i < |s.players|
    case PressStart => ScreenOf(s) == Setup
    case TapLetters(i) => ScreenOf(s) == Board && i < |s.players| && !s.players[i].eliminated
    case UndoLetter(i) => ScreenOf(s) == Board && i < |s.players| && s.players[i].letters != []
    case ToggleWildcard(i) => ScreenOf(s) == Board && i < |s.players| && !s.players[i].eliminated
    case PressReset => ScreenOf(s) != Setup
    case BackToGame => ScreenOf(s) == Results
    case BackToLeaderboard => ScreenOf(s) == Board && s.wasWinner
  }

  /** The handler behind each control. */
  function Apply(s: GameState, e: Event): GameState
    requires Available(s, e)
  {
    match e
    case PickWord(w) => ChooseWord(s, w)
    case SubmitName(input) => AddPlayer(s, input)
    case DropPlayer(i) => RemovePlayer(s, i)
    case PressStart => StartGame(s)
    case TapLetters(i) => AddLetter(s, i)
    case UndoLetter(i) => RemoveLetter(s, i)
    case ToggleWildcard(i) => UseWildcard(s, i)
    case PressReset => ResetGame(s)
    case BackToGame => DismissWinner(s)
    case BackToLeaderboard => RecheckWinner(s)
  }

  /** A control that is not on screen cannot be used: such an event changes
      nothing. */
  function Step(s: GameState, e: Event): GameState {
    if Available(s, e) then Apply(s, e) else s
  }

  /** The state after a sequence of events. */
  function Run(s: GameState, es: seq<Event>): GameState
    decreases |es|
  {
    if es == [] then s else Run(Step(s, es[0]), es[1..])
  }

  /** What holds in every state the user can reach:
      - every player's letters are a prefix of the stripped word, and a
        player is eliminated exactly when a non-empty stripped word is
        spelled in full;
      - every name is non-empty;
      - before the game starts, every player is as it joined;
      - a declared winner is the single survivor, the game has started and
        the winner flag is up. */
  ghost predicate Inv(s: GameState) {
    && AllProgress(s.players, Clean(s.gameWord))
    && (forall k :: 0 <= k < |s.players| ==> s.players[k].name != "")
    && (!s.gameStarted ==> forall k :: 0 <= k < |s.players| ==> s.players[k] == NewPlayer(s.players[k].name))
    && (s.winner != "" ==> s.gameStarted && s.wasWinner && SoleSurvivor(s.players, s.winner))
  }

  lemma InitialInv()
    ensures Inv(Initial)
  {
  }

  /** Picking a word on the setup screen keeps the invariant: nobody holds
      letters yet, so any word fits. */
  lemma ChooseWordKeepsInv(s: GameState, w: string)
    requires Inv(s) && ScreenOf(s) == Setup
    ensures Inv(ChooseWord(s, w))
  {
    var r := ChooseWord(s, w);
    assert forall k :: 0 <= k < |r.players| ==> r.players[k].letters == [];
  }

  /** A player joining keeps the invariant: the newcomer has a non-empty name
      and no letters. */
  lemma AddPlayerKeepsInv(s: GameState, input: string)
    requires Inv(s) && ScreenOf(s) == Setup
    ensures Inv(AddPlayer(s, input))
  {
    var r := AddPlayer(s, input);
    var clean := Clean(s.gameWord);
    if |r.players| == |s.players| + 1 {
      var np := NewPlayer(Trim(input));
      assert r.players == s.players + [np];
      forall k | 0 <= k < |r.players|
        ensures Progress(r.players[k], clean)
        ensures r.players[k].name != ""
        ensures r.players[k] == NewPlayer(r.players[k].name)
      {
        if k < |s.players| {
          assert r.players[k] == s.players[k];
        }
      }
    }
  }

  /** A player leaving the setup screen keeps the invariant. */
  lemma RemovePlayerKeepsInv(s: GameState, i: int)
    requires Inv(s) && ScreenOf(s) == Setup
    ensures Inv(RemovePlayer(s, i))
  {
    var r := RemovePlayer(s, i);
    var clean := Clean(s.gameWord);
    if 0 <= i < |s.players| {
      forall k | 0 <= k < |r.players|
        ensures Progress(r.players[k], clean)
        ensures r.players[k].name != ""
        ensures r.players[k] == NewPlayer(r.players[k].name)
      {
        assert r.players[k] == s.players[if k < i then k else k + 1];
      }
    }
  }

  /** A tap on the board keeps the invariant: the board shows no winner, so a
      winner the tap declares is the single survivor. */
  lemma AddLetterKeepsInv(s: GameState, i: nat)
    requires Inv(s) && ScreenOf(s) == Board && i < |s.players|
    ensures Inv(AddLetter(s, i))
  {
    AddLetterKeepsProgress(s, i);
    var r := AddLetter(s, i);
    if AddsLetter(s, i) && |ActivePlayers(r.players)| == 1 {
      AddLetterDeclaresSoleSurvivor(s, i);
    }
  }

  /** Undoing a letter on the board keeps the invariant. */
  lemma RemoveLetterKeepsInv(s: GameState, i: nat)
    requires Inv(s) && ScreenOf(s) == Board && i < |s.players|
    ensures Inv(RemoveLetter(s, i))
  {
    RemoveLetterKeepsProgress(s, i);
  }

  /** Toggling a wildcard on the board keeps the invariant. */
  lemma UseWildcardKeepsInv(s: GameState, i: nat)
    requires Inv(s) && ScreenOf(s) == Board && i < |s.players|
    ensures Inv(UseWildcard(s, i))
  {
    UseWildcardKeepsProgress(s, i);
  }

  /** "Back to Leaderboard" keeps the invariant: it only declares the single
      survivor, and the button is shown only once the winner flag is up. */
  lemma RecheckKeepsInv(s: GameState)
    requires Inv(s) && ScreenOf(s) == Board && s.wasWinner
    ensures Inv(RecheckWinner(s))
  {
    if |ActivePlayers(s.players)| == 1 {
      RecheckDeclaresSoleSurvivor(s);
    }
  }

  /** Every handler, used from a screen that offers it, keeps the invariant;
      an event whose control is not on screen changes nothing. */
  lemma StepKeepsInv(s: GameState, e: Event)
    requires Inv(s)
    ensures Inv(Step(s, e))
  {
    if Available(s, e) {
      match e
      case PickWord(w) => ChooseWordKeepsInv(s, w);
      case SubmitName(input) => AddPlayerKeepsInv(s, input);
      case DropPlayer(i) => RemovePlayerKeepsInv(s, i);
      case PressStart =>
      case TapLetters(i) => AddLetterKeepsInv(s, i);
      case UndoLetter(i) => RemoveLetterKeepsInv(s, i);
      case ToggleWildcard(i) => UseWildcardKeepsInv(s, i);
      case PressReset =>
      case BackToGame =>
      case BackToLeaderboard => RecheckKeepsInv(s);
    }
  }

  /** Every state reached from a fresh page satisfies the invariant. */
  lemma {:induction false} RunKeepsInv(s: GameState, es: seq<Event>)
    requires Inv(s)
    ensures Inv(Run(s, es))
    decreases |es|
  {
    if es != [] {
      StepKeepsInv(s, es[0]);
      RunKeepsInv(Step(s, es[0]), es[1..]);
    }
  }

  /** The invariant, read out for any reachable results screen: the declared
      winner is the one player still in, and the ranking starts with a player
      of that name. */
  lemma ReachableResults(es: seq<Event>)
    requires ScreenOf(Run(Initial, es)) == Results
    ensures var s := Run(Initial, es);
      && SoleSurvivor(s.players, s.winner)
      && s.wasWinner
      && FinalRanking(s)[0].name == s.winner
  {
    InitialInv();
    RunKeepsInv(Initial, es);
    var s := Run(Initial, es);
    var k :| 0 <= k < |s.players| && !s.players[k].eliminated && s.players[k].name == s.winner &&
      forall j :: 0 <= j < |s.players| && !s.players[j].eliminated ==> j == k;
    assert HasName(s.players, s.winner);
    RankShape(s.players, s.winner);
  }

  /** The invariant, read out for any reachable state and any player: its
      letters are a prefix of the stripped word, and it is eliminated exactly
      when it has spelled a non-empty stripped word in full. */
  lemma ReachableProgress(es: seq<Event>, i: nat)
    requires i < |Run(Initial, es).players|
    ensures var s := Run(Initial, es);
      var clean, p := Clean(s.gameWord), s.players[i];
      && p.letters <= clean
      && |p.letters| <= |clean|
      && (p.eliminated <==> clean != [] && p.letters == clean)
  {
    InitialInv();
    RunKeepsInv(Initial, es);
  }

  /** The undo button is rendered only on the board, which shows only while
      no winner is set: so an undo click never changes the winner, and the
      clearing inside `removeLetter` has no effect through the screens. */
  lemma UndoKeepsWinner(s: GameState, i: nat)
    ensures Available(s, UndoLetter(i)) ==> s.winner == ""
    ensures Step(s, UndoLetter(i)).winner == s.winner
  {
  }

  /** "Back to Game" on a reachable results screen leaves a state with no
      winner although the former winner is still the single survivor: a
      winner is set only right after it is declared, not whenever exactly one
      player is in. */
  lemma DismissLeavesSurvivorWithoutWinner(es: seq<Event>)
    requires ScreenOf(Run(Initial, es)) == Results
    ensures var s := Run(Initial, es);
      var r := Step(s, BackToGame);
      && r.winner == ""
      && ScreenOf(r) == Board
      && SoleSurvivor(r.players, s.winner)
  {
    InitialInv();
    RunKeepsInv(Initial, es);
    var s := Run(Initial, es);
    assert Step(s, BackToGame) == DismissWinner(s);
  }

  // ---------------------------------------------------------------------
  // Scenarios
  // ---------------------------------------------------------------------

  /** A tap that collects a letter for the first of two players, while the
      second is still in: the first player collects, and the second is
      declared the winner exactly when the first is eliminated by it. */
  lemma TapFirstOfTwo(s: GameState)
    requires |s.players| == 2 && !s.players[1].eliminated && AddsLetter(s, 0)
    ensures var q := CollectLetter(s.players[0], Clean(s.gameWord));
      AddLetter(s, 0) == if q.eliminated
        then s.(players := [q, s.players[1]], winner := s.players[1].name, wasWinner := true)
        else s.(players := [q, s.players[1]])
  {
    var r, q := AddLetter(s, 0), CollectLetter(s.players[0], Clean(s.gameWord));
    assert r.players == [q, s.players[1]];
    assert [q, s.players[1]][1..] == [s.players[1]];
    assert ActivePlayers([s.players[1]]) == [s.players[1]];
    assert ActivePlayers(r.players) == (if q.eliminated then [] else [q]) + [s.players[1]];
  }

  /** The running example: word "BIKE", X holding `letters`, Y still in. */
  function BikeGame(letters: string, eliminated: bool, winner: string, wasWinner: bool): GameState {
    GameState("BIKE", [Player("X", letters, eliminated, false), NewPlayer("Y")], true, winner, wasWinner)
  }

  /** The running example's word holds no whitespace. */
  lemma BikeClean()
    ensures Clean("BIKE") == "BIKE"
  {
    assert !IsSpace('B') && !IsSpace('I') && !IsSpace('K') && !IsSpace('E');
    CleanOfSpaceless("BIKE");
  }

  /** X, holding the first `k` letters of "BIKE", collects the next one and
      is eliminated exactly when that completes the word. */
  lemma BikeCollect(k: nat)
    requires k < 4
    ensures CollectLetter(Player("X", "BIKE"[..k], false, false), "BIKE")
         == Player("X", "BIKE"[..k + 1], k == 3, false)
  {
    assert "BIKE"[..k] + ["BIKE"[k]] == "BIKE"[..k + 1];
    assert k < 3 ==> |"BIKE"[..k + 1]| != |"BIKE"|;
  }

  /** A tap on X in the running example that does not complete the word:
      X, holding the first `k` letters, gets the next one. */
  lemma BikeTap(k: nat)
    requires k < 3
    ensures AddLetter(BikeGame("BIKE"[..k], false, "", false), 0)
         == BikeGame("BIKE"[..k + 1], false, "", false)
  {
    BikeClean();
    BikeCollect(k);
    TapFirstOfTwo(BikeGame("BIKE"[..k], false, "", false));
  }

  /** The last tap on X in the running example eliminates X and crowns Y. */
  lemma BikeLastTap()
    ensures AddLetter(BikeGame("BIKE"[..3], false, "", false), 0) == BikeGame("BIKE", true, "Y", true)
  {
    var s := BikeGame("BIKE"[..3], false, "", false);
    BikeClean();
    BikeLastCollect();
    TapFirstOfTwo(s);
  }

  /** X's last letter completes the word. */
  lemma BikeLastCollect()
    ensures CollectLetter(Player("X", "BIKE"[..3], false, false), "BIKE") == Player("X", "BIKE", true, false)
  {
    BikeCollect(3);
    assert "BIKE"[..4] == "BIKE";
  }

  /** Word "BIKE", players X and Y: four taps on X eliminate X and declare Y
      the winner. */
  lemma BikeFourTaps()
    ensures AddLetter(AddLetter(AddLetter(AddLetter(BikeGame("", false, "", false), 0), 0), 0), 0)
         == BikeGame("BIKE", true, "Y", true)
  {
    var s0, s1, s2, s3 := BikeGame("", false, "", false),
      BikeGame("BIKE"[..1], false, "", false), BikeGame("BIKE"[..2], false, "", false),
      BikeGame("BIKE"[..3], false, "", false);
    assert "BIKE"[..0] == "";
    BikeTap(0);
    assert AddLetter(s0, 0) == s1;
    BikeTap(1);
    assert AddLetter(s1, 0) == s2;
    BikeTap(2);
    assert AddLetter(s2, 0) == s3;
    BikeLastTap();
  }

  /** After X is eliminated and Y crowned, "Back to Game" clears the winner
      while Y is still the only player in. Undoing X's last letter on the
      board then brings X back with "BIK": two players are in again, the
      winner stays empty and the flag stays up. */
  lemma BikeUndo()
    ensures Step(BikeGame("BIKE", true, "Y", true), BackToGame) == BikeGame("BIKE", true, "", true)
    ensures Run(BikeGame("BIKE", true, "Y", true), [BackToGame, UndoLetter(0)])
         == BikeGame("BIK", false, "", true)
  {
    var s0 := BikeGame("BIKE", true, "Y", true);
    var s1 := BikeGame("BIKE", true, "", true);
    assert Step(s0, BackToGame) == s1;
    assert Step(s1, UndoLetter(0)) == RemoveLetter(s1, 0);
    assert "BIKE"[..3] == "BIK";
    assert [BackToGame, UndoLetter(0)][1..] == [UndoLetter(0)];
    assert [UndoLetter(0)][1..] == [];
  }
}
